=== FILE: README.md ===
# Blackjack backend rules engine — a Dafny model

This project models the rules engine of a single-session Blackjack server
(`backend.py`). The server keeps one game in module globals: the `deck`, the
`player_hand`, the `dealer_hand` and a `game_over` flag. Three endpoints change
them:

- `start` builds and shuffles a fresh 52-card deck. It deals two cards to the
  player and then two to the dealer, and settles at once when either hand is
  a natural.
- `hit` gives the player a card. A bust ends the round. Reaching exactly 21
  makes the dealer play out and then ends the round.
- `stand` makes the dealer draw until its hand is worth at least 17, then
  compares the totals.

In the model the globals become an immutable `Game.State` record. Each endpoint
is a pure function from a state (and the random generator) to the next state,
the reply's message and the advanced generator.

Modules, one per component:

- `Cards` (`cards.dfy`): suits, ranks, cards, the fresh deck and `list.pop(i)`.
- `Random` (`random.dfy`): the random generator as an arbitrary stream of numbers.
- `Hand` (`hand.dfy`): `hand_value` (Aces 11, demoted one by one while over 21)
  and `check_blackjack`.
- `Rules` (`rules.dfy`): the outcome enumeration and the three ordered decision
  rules. Also the fixed table of message strings.
- `Game` (`game.dfy`): `draw_card`, the dealer's loop, `start_game`, `hit` and `stand`.
- `Invariants` (`invariants.dfy`): card conservation and the open-round
  invariant. It also shows that no sequence of calls from the freshly loaded
  server ever draws from an empty deck.
- `Scenarios` (`scenarios.dfy`): concrete hands and a concrete round.

Randomness is a parameter. `random.shuffle` becomes an argument `shuffled` that
may be any ordering of the fresh deck (`Game.IsShuffledDeck`).
`random.randint(0, n - 1)` becomes `Random.Below`, which takes the next number of
an arbitrary stream, capped to `n - 1`. Every index can come out of some stream
(`Random.BelowCanYieldAny`).

`draw_card` on an empty deck raises in the server, because `randint(0, -1)` fails.
The model returns `Failure(EmptyDeck)` there. `Invariants.NeverRunsDry` proves
this never happens from the initial state, whatever calls follow.

Behaviour of the code that the model keeps:

- After the round ends, `hit` and `stand` are silent no-ops. They reply
  "Game is over! …" and change nothing. No error is raised.
- The round state is just the `game_over` flag, and it starts out false. So
  `hit` and `stand` are accepted before any `start`, on the unshuffled deck.
- The opening deal gives the player two cards and then the dealer two. The
  cards do not alternate.
- A dealer natural at the deal ends the round as a player loss.
- The dealer draws only while its hand is worth less than 17, so it stands on
  an Ace and a six (`Scenarios.DealerStandsOnSoft17`).
- The stand rule compares the totals without asking whether the player is
  over 21. In an open round the player is always below 21 (`Invariants.Valid`).
- Hand totals are not monotone in the cards drawn: a soft 20 plus a 5 is 15
  (`Scenarios.ValueNotMonotone`). The dealer's loop ends because the deck
  shrinks, not because the total grows.
- Two Aces and two Kings are worth 22, a bust: both Aces are demoted and the
  total is still over 21 (`Scenarios.TwoAcesTwoKings`).

## Model

| member | source | states |
|---|---|---|
| Cards.FreshDeckComplete | backend.py:26-28 | every (suit, rank) pair is in the fresh deck, at position 13·suit + rank, so suits are outer and ranks inner |
| Cards.FreshDeckDistinct | backend.py:26-28 | no card occurs twice in the fresh deck |
| Cards.FreshDeckEachOnce | backend.py:26-28 | each of the 52 cards has multiplicity exactly one in the fresh deck |
| Cards.PipsAgreeWithLabel | backend.py:49-50 | for ranks 2..10, reading the rank label as a decimal number (`int(card["rank"])`) gives the rank's face value |
| Cards.Pop | backend.py:37 | `deck.pop(i)` returns the card at `i`, keeps the other cards in order, and shrinks the deck by one; removed card plus rest is the old deck as a multiset |
| Random.Below | backend.py:37 | `random.randint(0, n - 1)` yields an index strictly below `n` |
| Game.DrawFrom | backend.py:35-37 | drawing from a non-empty deck yields one of its cards and leaves the deck one card shorter, missing exactly that card |
| Game.DrawCard | backend.py:35-37 | `draw_card` fails exactly when the deck is empty; otherwise the card came from the deck and the deck lost exactly that card |
| Hand.Points | backend.py:44-50 | J, Q, K count 10 and an Ace 11 before demotion; a 2..10 counts its label read as a decimal number (`int(card["rank"])`); each card counts 2..11, and 11 exactly for an Ace |
| Hand.HandValue | backend.py:39-54 | `hand_value`; its contract is stated by `Hand.HandValueDemotions`, `Hand.HandValueBounds` and `Hand.ComputeHandValue` |
| Hand.TotalsRelated | backend.py:43-50 | the Aces-high total is the Aces-low total plus 10 per Ace, and the Aces-low total is at least the number of cards |
| Hand.DemoteCount | backend.py:51-53 | the demotion loop subtracts 10 exactly `Demotions` times: the least count that brings the total to 21 or below, or every Ace if none does |
| Hand.HandValueDemotions | backend.py:39-54 | `hand_value` is the all-Aces-11 sum minus 10·k, k is at most the number of Aces, the result is at most 21 unless k is every Ace, and k is least |
| Hand.HandValueBounds | backend.py:39-54 | the value lies between the Aces-low and Aces-high totals; above 21 only with every Ace demoted; at most 21 whenever the Aces-low total is; never below the card count |
| Hand.ComputeHandValue | backend.py:39-54 | the server's two loops, run as written, compute `HandValue` |
| Hand.PairValue | backend.py:56-58 | a two-card hand is worth 12 with two Aces and the plain sum of points otherwise |
| Hand.IsBlackjack | backend.py:56-58 | `check_blackjack`; `Hand.BlackjackIsAceAndTen` states which hands satisfy it |
| Hand.BlackjackIsAceAndTen | backend.py:56-58 | `check_blackjack` holds exactly for two cards that are an Ace and a ten-valued card, in either order |
| Rules.DealOutcome | backend.py:74-86 | after the deal the round ends exactly when a hand is a natural; two naturals give the both-blackjack push, a lone player natural the player-blackjack win, a lone dealer natural the dealer-blackjack loss |
| Rules.TwentyOneOutcome | backend.py:124-130 | once the player has hit to 21 the dealer never wins: a dealer over 21 gives the dealer-bust win, a dealer on 21 pushes, and a dealer below 21 gives the win with 21 |
| Rules.StandOutcome | backend.py:159-166 | the stand rule picks the dealer-bust win exactly when the dealer is over 21; otherwise the higher-player win, the tie or the dealer win exactly when the player's total is above, equal to or below the dealer's |
| Rules.StandWinner | backend.py:159-166 | on stand the player wins exactly when the dealer busts or has less; the dealer wins exactly when it has more without busting; equal totals push |
| Rules.TwentyOneAgreesWithStand | backend.py:124-130 | the hit-to-21 rule favours the same side as the stand rule with the player on 21, and pushes exactly when that rule ties |
| Rules.NatToString | backend.py:138 | the hand value in "Your hand is worth {value}" is printed as a non-empty string of decimal digits with no leading zero |
| Rules.NatToStringRoundTrip | backend.py:138 | reading the printed digits back gives the value |
| Rules.HandWorthReadsBack | backend.py:138 | the reply to a hit that keeps the round open is "Your hand is worth " followed by digits that read back as the hand's value |
| Rules.OutcomeText | backend.py:82-166 | the message literals of the replies; `Rules.OutcomeTextInjective` states that they tell the outcomes apart |
| Rules.OutcomeTextInjective | backend.py:82-166 | no two outcomes share a message string, so the message identifies the outcome |
| Game.DealerPlay | backend.py:151-152 | the dealer's loop ends with a hand worth at least 17. Every card was drawn while the hand was below 17, and it went from the deck to the end of the hand. It fails only when dealer and deck together hold fewer than 17 cards |
| Game.DrawPair | backend.py:66-67 | `[draw_card(), draw_card()]` takes two cards from the deck, which loses exactly those two |
| Game.Deal | backend.py:66-67 | the opening deal leaves 2 cards in each hand and 48 in the deck, and loses or invents no card |
| Game.Start | backend.py:61-95 | after `start` there are 2 + 2 cards and 48 in the deck, and together they are the full deck. The round is over exactly when a hand is a natural, with the message chosen by the ordered natural rule |
| Game.TakeCard | backend.py:108-136 | the drawn card ends the player's hand. Over 21 the round ends as a bust with the dealer untouched; exactly 21 makes the dealer play out to 17 or more and settles by the 21 rule; below 21 the round stays open |
| Game.Hit | backend.py:98-138 | over: nothing changes. Otherwise one card moves from the deck to the end of the player's hand. Over 21: bust, dealer untouched. Exactly 21: dealer plays out to 17 or more, settled by the 21 rule. Below 21: still open, with the hand's worth |
| Game.Stand | backend.py:141-172 | over: nothing changes. Otherwise the dealer plays out to 17 or more, drawing only below 17 and only from the deck. The player's hand is unchanged, the round ends, and the stand rule settles it |
| Game.HitTo21IsStand | backend.py:118-130 | a hit that reaches 21 leaves the same state as standing right after that card, with an outcome favouring the same side |
| Invariants.ConservedPartition | backend.py:64-67 | with cards conserved, each card lies in exactly one of deck, player hand and dealer hand, once, and the three hold 52 cards |
| Game.Initial | backend.py:25-33 | the globals when the server is loaded; `Invariants.InitialValid` states that they satisfy the invariant |
| Invariants.InitialValid | backend.py:28-33 | the freshly loaded server (unshuffled deck, empty hands, round open) satisfies the invariant |
| Invariants.StartValid | backend.py:64-87 | `start` always leads to a state satisfying the invariant, whatever came before |
| Invariants.HitPreservesValid | backend.py:101-138 | from a valid state `hit` never draws from an empty deck and leads to a valid state |
| Invariants.StandPreservesValid | backend.py:144-166 | from a valid state `stand` never draws from an empty deck and leads to a valid state, and the player it settles for is at most 20 |
| Invariants.RunPreservesValid | backend.py:60-172 | any sequence of `start`, `hit` and `stand` calls from a valid state completes without a fault and ends valid |
| Invariants.NeverRunsDry | backend.py:35-37 | from the freshly loaded server no sequence of calls ever asks `draw_card` for a card from an empty deck, and cards stay conserved |
| Scenarios.TwoAcesAndNine | backend.py:51-53 | A, A, 9 is worth 21 |
| Scenarios.FourAcesAndNine | backend.py:51-53 | A, A, A, A, 9 is worth 13 |
| Scenarios.TwoAcesTwoKings | backend.py:51-53 | A, A, K, K is worth 22 |
| Scenarios.BustBoundary | backend.py:56-58 | 10, 9, 5 is worth 24; 10, 9, 2 is worth 21 but not a blackjack; A, K is a blackjack |
| Scenarios.ValueNotMonotone | backend.py:51-53 | A, 9 is worth 20 and A, 9, 5 only 15 |
| Scenarios.DealerStandsOnSoft17 | backend.py:151-152 | a dealer holding A, 6 draws nothing |
| Scenarios.ScriptedDeal | backend.py:64-67 | on the unshuffled deck with positions 5, 5, 6, 4 the deal gives 7, 8 of Hearts to the player and 10, 6 of Hearts to the dealer, leaving the 2 and the 5 of Hearts at positions 0 and 3 |
| Scenarios.ScriptedStart | backend.py:64-95 | on the unshuffled deck with positions 5, 5, 6, 4 the player gets 7 and 8, the dealer 10 and 6, and the round stays open |
| Scenarios.HitFive | backend.py:108-138 | a player on 7 and 8 who draws the 5 is worth 20, the round stays open, and only the player's hand and the deck change |
| Scenarios.DealerDrawsTwo | backend.py:151-152 | a dealer on 10 and 6 draws the 2 at the front of the deck and stops on 18 |
| Scenarios.StandOnTwenty | backend.py:151-166 | a player on 20 standing against 10 and 6 sees the dealer draw the 2, stop on 18 and lose |
| Scenarios.HitFiveThenStand | backend.py:108-166 | from that deal a hit on the 5 makes 20 and keeps the round open; a stand then makes the dealer draw the 2, stop at 18 and lose |

## Left out

- The FastAPI application, its routes, the CORS set-up and the welcome
  endpoint (backend.py:5-23, 174-177) are transport, not rules.
- The JSON shape of the replies is left out. That includes the `"Hidden"`
  placeholder for the dealer's second card, which keys carry the dealer hand,
  whether the text is under `"message"` or `"result"`, and the suit names
  stored in each card. Apart from the placeholder, and the dealer hand left out
  of a `hit` reply below 21 (backend.py:138), a hand shown in a reply is the
  state's hand.
- `random.shuffle` and `random.randint` are parameters. The model says nothing
  about their distribution.
- Random.Below: caps the stream's next number to the range. It does not model
  how `randint` draws its bits, only that it yields some index in range.
- The three messages at backend.py:84, 160 and 162 contain "ðŸŽ‰" in the
  source text. Those characters are the UTF-8 bytes of U+1F389 (party
  popper) read as CP1252. The model writes U+1F389 in their place. Only the
  fixed outcome-to-string table is modelled, not its encoding.
- When `draw_card` raises, the server is left with whatever the operation had
  already changed. The model returns only the fault. No reachable state raises
  (`Invariants.NeverRunsDry`).
- Concurrency: `start_game`, `hit` and `stand` are plain `def` endpoints,
  which FastAPI runs in a thread pool, and nothing serialises their access to
  the globals. Two concurrent calls can interleave, for example between
  `len(deck)` and `deck.pop` in `draw_card`. The model assumes that calls
  arrive one at a time and applies each call whole.
- The React front end is presentation only: layout, card artwork, animation
  and `fetch` calls.
- The scripted round is proved in two steps, `Scenarios.ScriptedStart` and
  then `Scenarios.HitFiveThenStand` on the resulting state. The generator
  positions 3 and 0 are the ones `Scenarios.Script` gives after the deal.

=== FILE: cards.dfy ===
/** Playing cards and the standard 52-card deck of the blackjack backend.

    A card is a (suit, rank) pair. The fresh deck lists the four suits in the
    order Hearts, Diamonds, Clubs, Spades and, within each suit, the ranks
    2..10, J, Q, K, A, exactly as the backend's list comprehension builds it.
 */
module Cards {

  datatype Suit = Hearts | Diamonds | Clubs | Spades

  datatype Rank = Two | Three | Four | Five | Six | Seven | Eight | Nine | Ten
                | Jack | Queen | King | Ace

  datatype Card = Card(suit: Suit, rank: Rank)

  /** The suits in the order the backend lists them. */
  const Suits: seq<Suit> := [Hearts, Diamonds, Clubs, Spades]

  /** The ranks in the order the backend lists them. */
  const Ranks: seq<Rank> := [Two, Three, Four, Five, Six, Seven, Eight, Nine, Ten,
                             Jack, Queen, King, Ace]

  /** The position of a suit in `Suits`. */
  function SuitIndex(s: Suit): (i: nat)
    ensures i < |Suits| && Suits[i] == s
  {
    match s
    case Hearts => 0
    case Diamonds => 1
    case Clubs => 2
    case Spades => 3
  }

  /** The position of a rank in `Ranks`. */
  function RankIndex(r: Rank): (i: nat)
    ensures i < |Ranks| && Ranks[i] == r
  {
    match r
    case Two => 0
    case Three => 1
    case Four => 2
    case Five => 3
    case Six => 4
    case Seven => 5
    case Eight => 6
    case Nine => 7
    case Ten => 8
    case Jack => 9
    case Queen => 10
    case King => 11
    case Ace => 12
  }

  /** The string the backend stores in a card's "rank" field. */
  function RankLabel(r: Rank): (s: string)
    ensures IsNumeric(r) ==> forall i :: 0 <= i < |s| ==> IsDigit(s[i])
  {
    match r
    case Two => "2"
    case Three => "3"
    case Four => "4"
    case Five => "5"
    case Six => "6"
    case Seven => "7"
    case Eight => "8"
    case Nine => "9"
    case Ten => "10"
    case Jack => "J"
    case Queen => "Q"
    case King => "K"
    case Ace => "A"
  }

  predicate IsFace(r: Rank) {
    r == Jack || r == Queen || r == King
  }

  /** A rank whose label is a decimal number (2..10). */
  predicate IsNumeric(r: Rank) {
    !IsFace(r) && r != Ace
  }

  /** The face value of a numeric rank. */
  function Pips(r: Rank): (v: nat)
    requires IsNumeric(r)
    ensures 2 <= v <= 10
    ensures v == RankIndex(r) + 2
  {
    match r
    case Two => 2
    case Three => 3
    case Four => 4
    case Five => 5
    case Six => 6
    case Seven => 7
    case Eight => 8
    case Nine => 9
    case Ten => 10
  }

  predicate IsDigit(ch: char) {
    '0' <= ch <= '9'
  }

  /** The value of a string of decimal digits, as Python's `int` reads it. */
  function DecimalValue(s: string): nat
    requires forall i :: 0 <= i < |s| ==> IsDigit(s[i])
  {
    if |s| == 0 then 0
    else
      assert IsDigit(s[|s| - 1]);
      10 * DecimalValue(s[..|s| - 1]) + (s[|s| - 1] as int - '0' as int)
  }

  /** Reading a numeric rank's label as a decimal number gives its face value,
      so `Pips` agrees with the backend's `int(card["rank"])`. */
  lemma PipsAgreeWithLabel(r: Rank)
    requires IsNumeric(r)
    ensures forall i :: 0 <= i < |RankLabel(r)| ==> IsDigit(RankLabel(r)[i])
    ensures DecimalValue(RankLabel(r)) == Pips(r)
  {
    if r == Ten {
      assert RankLabel(r)[..1] == "1";
      assert DecimalValue("1") == 1;
    }
  }

  /** The unshuffled deck, suit by suit. */
  function FreshDeck(): (d: seq<Card>)
    ensures |d| == |Suits| * |Ranks| == 52
  {
    seq(52, i requires 0 <= i < 52 => Card(Suits[i / 13], Ranks[i % 13]))
  }

  /** Every card occurs in the fresh deck, at position 13 * suit + rank. */
  lemma FreshDeckComplete(c: Card)
    ensures 13 * SuitIndex(c.suit) + RankIndex(c.rank) < 52
    ensures FreshDeck()[13 * SuitIndex(c.suit) + RankIndex(c.rank)] == c
    ensures c in FreshDeck()
  {
    var i := 13 * SuitIndex(c.suit) + RankIndex(c.rank);
    assert i / 13 == SuitIndex(c.suit) && i % 13 == RankIndex(c.rank);
  }

  predicate NoDuplicates<T(==)>(s: seq<T>) {
    forall i, j :: 0 <= i < j < |s| ==> s[i] != s[j]
  }

  /** Position `i` of the fresh deck holds suit `i / 13` and rank `i % 13`. */
  lemma FreshDeckAt(i: nat)
    requires i < 52
    ensures SuitIndex(FreshDeck()[i].suit) == i / 13
    ensures RankIndex(FreshDeck()[i].rank) == i % 13
  {
  }

  /** Two positions with the same quotient and remainder by 13 are equal. */
  lemma SameDivMod(i: nat, j: nat)
    requires i / 13 == j / 13 && i % 13 == j % 13
    ensures i == j
  {
    assert i == 13 * (i / 13) + i % 13;
    assert j == 13 * (j / 13) + j % 13;
  }

  /** No card occurs twice in the fresh deck. */
  lemma FreshDeckDistinct()
    ensures NoDuplicates(FreshDeck())
  {
    var d := FreshDeck();
    forall i, j | 0 <= i < j < 52
      ensures d[i] != d[j]
    {
      FreshDeckAt(i);
      FreshDeckAt(j);
      if d[i] == d[j] {
        SameDivMod(i, j);
      }
    }
  }

  /** In a sequence without duplicates every element has multiplicity one. */
  lemma {:induction false} DistinctMultiplicity<T>(s: seq<T>, x: T)
    requires NoDuplicates(s)
    ensures multiset(s)[x] == if x in s then 1 else 0
  {
    if |s| > 0 {
      var init := s[..|s| - 1];
      assert s == init + [s[|s| - 1]];
      assert NoDuplicates(init);
      DistinctMultiplicity(init, x);
      if x == s[|s| - 1] {
        assert x !in init;
      }
    }
  }

  /** The fresh deck holds each of the 52 cards exactly once. */
  lemma FreshDeckEachOnce(c: Card)
    ensures multiset(FreshDeck())[c] == 1
  {
    FreshDeckComplete(c);
    FreshDeckDistinct();
    DistinctMultiplicity(FreshDeck(), c);
  }

  /** Removing the card at position `i`, as Python's `list.pop(i)` does: the
      removed card is returned and the others keep their order. */
  function Pop(deck: seq<Card>, i: nat): (r: (Card, seq<Card>))
    requires i < |deck|
    ensures r.0 == deck[i] && r.0 in deck
    ensures |r.1| == |deck| - 1
    ensures multiset(r.1) + multiset{r.0} == multiset(deck)
    ensures forall j :: 0 <= j < i ==> r.1[j] == deck[j]
    ensures forall j :: i <= j < |r.1| ==> r.1[j] == deck[j + 1]
  {
    assert deck == deck[..i] + [deck[i]] + deck[i + 1..];
    (deck[i], deck[..i] + deck[i + 1..])
  }
}

=== FILE: game.dfy ===
/** The backend's game state and its three operations.

    The backend keeps the deck, the two hands and a `game_over` flag in
    module globals. Here they form one immutable `State` value; each
    operation takes the current state and the random generator and returns
    the next state, the reply's message and the advanced generator.

    Drawing from an empty deck makes the backend's `random.randint(0, -1)`
    raise; the model returns `Failure(EmptyDeck)` there. The Invariants
    module shows that no state reachable from the initial one ever gets
    there.
 */
module Game {
  import opened Cards
  import opened Hand
  import opened Random
  import opened Rules

  datatype Fault = EmptyDeck

  datatype Result<T> = Ok(value: T) | Failure(fault: Fault)

  datatype State = State(deck: seq<Card>, player: seq<Card>, dealer: seq<Card>, gameOver: bool)

  /** The state when the backend has just been loaded: the unshuffled deck,
      empty hands and a round that is not over, so `hit` and `stand` are
      accepted before any `start`. */
  function Initial(): State {
    State(FreshDeck(), [], [], false)
  }

  /** A drawn card, the deck without it and the advanced generator. */
  datatype Drawn = Drawn(card: Card, deck: seq<Card>, rng: Rng)

  /** Taking the card at a random position of a non-empty deck. */
  function DrawFrom(deck: seq<Card>, g: Rng): (d: Drawn)
    requires |deck| > 0
    ensures d.card in deck
    ensures |d.deck| == |deck| - 1
    ensures multiset(d.deck) + multiset{d.card} == multiset(deck)
  {
    var (i, g') := Below(g, |deck|);
    var (c, rest) := Pop(deck, i);
    Drawn(c, rest, g')
  }

  /** `draw_card`: remove the card at a random position of the deck. */
  function DrawCard(deck: seq<Card>, g: Rng): (r: Result<Drawn>)
    ensures r.Failure? <==> |deck| == 0
    ensures r.Ok? ==> r.value.card in deck
    ensures r.Ok? ==> |r.value.deck| == |deck| - 1
    ensures r.Ok? ==> multiset(r.value.deck) + multiset{r.value.card} == multiset(deck)
  {
    if |deck| == 0 then Failure(EmptyDeck) else Ok(DrawFrom(deck, g))
  }

  /** `after` is `before` with cards appended, and those cards are what left
      the deck: hands only grow at the end and no card appears or vanishes. */
  predicate DealsFrom(before: State, after: State) {
    && before.player <= after.player
    && before.dealer <= after.dealer
    && multiset(before.deck) ==
         multiset(after.deck) + multiset(after.player[|before.player|..])
                              + multiset(after.dealer[|before.dealer|..])
  }

  /** Each card the dealer took was taken while its hand was below 17. */
  predicate DrewOnlyBelow17(before: seq<Card>, after: seq<Card>)
    requires before <= after
  {
    forall k :: |before| <= k < |after| ==> HandValue(after[..k]) < 17
  }

  /** The dealer's hand and the deck once the dealer has played out. */
  datatype Table = Table(dealer: seq<Card>, deck: seq<Card>, rng: Rng)

  /** One round of the dealer's loop, seen from the end of the loop: what
      holds after the rest of the loop from `dealer + [c]` on also holds from
      `dealer` on. */
  lemma DealerStep(dealer: seq<Card>, c: Card, deck: seq<Card>, rest: seq<Card>, t: Table)
    requires HandValue(dealer) < 17
    requires multiset(rest) + multiset{c} == multiset(deck)
    requires dealer + [c] <= t.dealer && DrewOnlyBelow17(dealer + [c], t.dealer)
    requires multiset(rest) == multiset(t.deck) + multiset(t.dealer[|dealer| + 1..])
    ensures dealer <= t.dealer && DrewOnlyBelow17(dealer, t.dealer)
    ensures multiset(deck) == multiset(t.deck) + multiset(t.dealer[|dealer|..])
  {
    assert t.dealer[|dealer|] == (dealer + [c])[|dealer|];
    assert t.dealer[..|dealer|] == dealer;
    assert t.dealer[|dealer|..] == [c] + t.dealer[|dealer| + 1..];
  }

  /** The dealer's loop: draw while the hand is worth less than 17. */
  function DealerPlay(dealer: seq<Card>, deck: seq<Card>, g: Rng): (r: Result<Table>)
    ensures r.Ok? ==> HandValue(r.value.dealer) >= 17
    ensures r.Ok? ==> dealer <= r.value.dealer && DrewOnlyBelow17(dealer, r.value.dealer)
    ensures r.Ok? ==> multiset(deck) == multiset(r.value.deck) + multiset(r.value.dealer[|dealer|..])
    ensures r.Failure? ==> |dealer| + |deck| < 17
    decreases |deck|
  {
    if HandValue(dealer) >= 17 then
      assert dealer[|dealer|..] == [];
      Ok(Table(dealer, deck, g))
    else if |deck| == 0 then
      HandValueBounds(dealer);
      Failure(EmptyDeck)
    else
      var d := DrawFrom(deck, g);
      var r := DealerPlay(dealer + [d.card], d.deck, d.rng);
      if r.Failure? then r
      else
        DealerStep(dealer, d.card, deck, d.deck, r.value);
        r
  }

  /** An operation's result: the next state, the reply's message and the
      advanced generator. */
  datatype Step = Step(state: State, message: Message, rng: Rng)

  /** `random.shuffle` may leave the fresh deck in any order. */
  predicate IsShuffledDeck(deck: seq<Card>) {
    multiset(deck) == multiset(FreshDeck())
  }

  /** Two cards drawn one after the other, and what is left. */
  datatype Pair = Pair(hand: seq<Card>, deck: seq<Card>, rng: Rng)

  /** `[draw_card(), draw_card()]`: two cards in the order they were drawn. */
  function DrawPair(deck: seq<Card>, g: Rng): (r: Pair)
    requires |deck| >= 2
    ensures |r.hand| == 2 && |r.deck| == |deck| - 2
    ensures multiset(r.deck) + multiset(r.hand) == multiset(deck)
  {
    var first := DrawFrom(deck, g);
    var second := DrawFrom(first.deck, first.rng);
    assert multiset([first.card, second.card]) == multiset{first.card} + multiset{second.card};
    Pair([first.card, second.card], second.deck, second.rng)
  }

  /** The opening deal: two cards to the player, then two to the dealer,
      each drawn like `draw_card` from what is left. */
  function Deal(shuffled: seq<Card>, g: Rng): (r: Step)
    requires |shuffled| == 52
    ensures |r.state.player| == 2 && |r.state.dealer| == 2 && |r.state.deck| == 48
    ensures multiset(r.state.deck) + multiset(r.state.player) + multiset(r.state.dealer)
            == multiset(shuffled)
  {
    var player := DrawPair(shuffled, g);
    var dealer := DrawPair(player.deck, player.rng);
    Step(State(dealer.deck, player.hand, dealer.hand, false), NoMessage, dealer.rng)
  }

  /** `start_game`: a fresh shuffled deck, two cards each (player first), and
      an immediate settlement when either hand is a natural. Nothing of the
      previous state survives. */
  function Start(shuffled: seq<Card>, g: Rng): (r: Step)
    requires IsShuffledDeck(shuffled)
    ensures |r.state.player| == 2 && |r.state.dealer| == 2 && |r.state.deck| == 48
    ensures multiset(r.state.deck) + multiset(r.state.player) + multiset(r.state.dealer)
            == multiset(FreshDeck())
    ensures r.state.gameOver <==> IsBlackjack(r.state.player) || IsBlackjack(r.state.dealer)
    ensures r.message == NoMessage <==> !r.state.gameOver
    ensures r.message == Settled(BothBlackjack) <==>
              IsBlackjack(r.state.player) && IsBlackjack(r.state.dealer)
    ensures r.message == Settled(PlayerBlackjack) <==>
              IsBlackjack(r.state.player) && !IsBlackjack(r.state.dealer)
    ensures r.message == Settled(DealerBlackjack) <==>
              !IsBlackjack(r.state.player) && IsBlackjack(r.state.dealer)
  {
    assert |shuffled| == 52 by {
      assert |multiset(shuffled)| == |multiset(FreshDeck())|;
    }
    var dealt := Deal(shuffled, g);
    var s := dealt.state;
    match DealOutcome(IsBlackjack(s.player), IsBlackjack(s.dealer))
    case None => dealt
    case Some(o) => Step(s.(gameOver := true), Settled(o), dealt.rng)
  }

  /** The player takes the drawn card `d` in the open round `s`: a bust ends
      the round, exactly 21 makes the dealer play out and ends it, anything
      less keeps it open. */
  function TakeCard(s: State, d: Drawn): (r: Result<Step>)
    requires multiset(d.deck) + multiset{d.card} == multiset(s.deck)
    ensures r.Failure? ==> |s.dealer| + |d.deck| < 17
    ensures r.Ok? ==>
      var s' := r.value.state;
      && DealsFrom(s, s')
      && s'.player == s.player + [d.card]
      && (s'.gameOver <==> HandValue(s'.player) >= 21)
      && (HandValue(s'.player) != 21 ==> s'.dealer == s.dealer)
      && (HandValue(s'.player) > 21 ==> r.value.message == Settled(PlayerBust))
      && (HandValue(s'.player) < 21 ==> r.value.message == HandWorth(HandValue(s'.player)))
      && (HandValue(s'.player) == 21 ==>
            && HandValue(s'.dealer) >= 17
            && DrewOnlyBelow17(s.dealer, s'.dealer)
            && r.value.message == Settled(TwentyOneOutcome(HandValue(s'.dealer))))
  {
    var player := s.player + [d.card];
    assert player[|s.player|..] == [d.card];
    assert s.dealer[|s.dealer|..] == [];
    var v := HandValue(player);
    if v > 21 then
      Ok(Step(State(d.deck, player, s.dealer, true), Settled(PlayerBust), d.rng))
    else if v == 21 then
      match DealerPlay(s.dealer, d.deck, d.rng)
      case Failure(f) => Failure(f)
      case Ok(t) =>
        Ok(Step(State(t.deck, player, t.dealer, true),
                Settled(TwentyOneOutcome(HandValue(t.dealer))), t.rng))
    else
      Ok(Step(State(d.deck, player, s.dealer, false), HandWorth(v), d.rng))
  }

  /** `hit`: ignored once the round is over; otherwise the player takes a
      card, and the round ends on a bust or, after the dealer plays out, on
      exactly 21. */
  function Hit(s: State, g: Rng): (r: Result<Step>)
    ensures s.gameOver ==> r == Ok(Step(s, GameIsOver, g))
    ensures r.Failure? ==> !s.gameOver && (|s.deck| == 0 || |s.dealer| + |s.deck| <= 17)
    ensures !s.gameOver && |s.deck| == 0 ==> r.Failure?
    ensures r.Ok? && !s.gameOver ==>
      var s' := r.value.state;
      && DealsFrom(s, s')
      && |s'.player| == |s.player| + 1
      && (s'.gameOver <==> HandValue(s'.player) >= 21)
      && (HandValue(s'.player) != 21 ==> s'.dealer == s.dealer)
      && (HandValue(s'.player) > 21 ==> r.value.message == Settled(PlayerBust))
      && (HandValue(s'.player) < 21 ==> r.value.message == HandWorth(HandValue(s'.player)))
      && (HandValue(s'.player) == 21 ==>
            && HandValue(s'.dealer) >= 17
            && DrewOnlyBelow17(s.dealer, s'.dealer)
            && r.value.message == Settled(TwentyOneOutcome(HandValue(s'.dealer))))
  {
    if s.gameOver then Ok(Step(s, GameIsOver, g))
    else
      match DrawCard(s.deck, g)
      case Failure(f) => Failure(f)
      case Ok(d) => TakeCard(s, d)
  }

  /** `stand`: ignored once the round is over; otherwise the dealer plays
      out, the round ends and the stand rule settles it. */
  function Stand(s: State, g: Rng): (r: Result<Step>)
    ensures s.gameOver ==> r == Ok(Step(s, GameIsOver, g))
    ensures r.Failure? ==> !s.gameOver && |s.dealer| + |s.deck| < 17
    ensures r.Ok? && !s.gameOver ==>
      var s' := r.value.state;
      && DealsFrom(s, s')
      && s'.gameOver
      && s'.player == s.player
      && HandValue(s'.dealer) >= 17
      && DrewOnlyBelow17(s.dealer, s'.dealer)
      && r.value.message == Settled(StandOutcome(HandValue(s.player), HandValue(s'.dealer)))
  {
    if s.gameOver then Ok(Step(s, GameIsOver, g))
    else
      match DealerPlay(s.dealer, s.deck, g)
      case Failure(f) => Failure(f)
      case Ok(t) =>
        assert s.player[|s.player|..] == [];
        Ok(Step(State(t.deck, s.player, t.dealer, true),
                Settled(StandOutcome(HandValue(s.player), HandValue(t.dealer))), t.rng))
  }

  /** A hit that brings the player to exactly 21 ends the round exactly as
      standing right after that card would: same hands, same deck, and an
      outcome favouring the same side. */
  lemma HitTo21IsStand(s: State, g: Rng)
    requires !s.gameOver && |s.deck| > 0
    requires HandValue(s.player + [DrawCard(s.deck, g).value.card]) == 21
    ensures var d := DrawCard(s.deck, g).value;
      var mid := State(d.deck, s.player + [d.card], s.dealer, false);
      && (Hit(s, g).Ok? <==> Stand(mid, d.rng).Ok?)
      && (Hit(s, g).Ok? ==>
            && Hit(s, g).value.state == Stand(mid, d.rng).value.state
            && Winner(Hit(s, g).value.message.outcome) == Winner(Stand(mid, d.rng).value.message.outcome))
  {
    var d := DrawCard(s.deck, g).value;
    var mid := State(d.deck, s.player + [d.card], s.dealer, false);
    if Hit(s, g).Ok? {
      TwentyOneAgreesWithStand(HandValue(Stand(mid, d.rng).value.state.dealer));
    }
  }
}

=== FILE: hand.dfy ===
/** Scoring a blackjack hand.

    The backend first counts every Ace as 11 and every other card at its
    face value (J, Q, K count 10), then, while the total is over 21 and some
    Ace is still counted as 11, counts one more Ace as 1 instead (subtracts
    10). A hand is a blackjack when it has exactly two cards and scores 21.
 */
module Hand {
  import opened Cards

  /** What a card counts before any Ace is demoted. */
  function Points(c: Card): (p: nat)
    ensures 2 <= p <= 11
    ensures p == 11 <==> c.rank == Ace
    ensures p == 10 <==> TenValued(c.rank)
    ensures IsNumeric(c.rank) ==> p == Pips(c.rank) == DecimalValue(RankLabel(c.rank))
  {
    if IsFace(c.rank) then 10
    else if c.rank == Ace then 11
    else
      PipsAgreeWithLabel(c.rank);
      Pips(c.rank)
  }

  /** What a card counts with an Ace taken as 1. */
  function LowPoints(c: Card): (p: nat)
    ensures 1 <= p <= 10
    ensures p == 1 <==> c.rank == Ace
  {
    if c.rank == Ace then 1 else Points(c)
  }

  predicate TenValued(r: Rank) {
    IsFace(r) || r == Ten
  }

  /** The total with every Ace counted as 11. */
  function SoftTotal(h: seq<Card>): nat {
    if |h| == 0 then 0 else SoftTotal(h[..|h| - 1]) + Points(h[|h| - 1])
  }

  /** The total with every Ace counted as 1. */
  function HardTotal(h: seq<Card>): nat {
    if |h| == 0 then 0 else HardTotal(h[..|h| - 1]) + LowPoints(h[|h| - 1])
  }

  /** 1 for an Ace, 0 for any other card. */
  function AceBit(c: Card): nat {
    if c.rank == Ace then 1 else 0
  }

  /** The number of Aces in the hand. */
  function Aces(h: seq<Card>): nat {
    if |h| == 0 then 0 else Aces(h[..|h| - 1]) + AceBit(h[|h| - 1])
  }

  /** Adding a card to a hand adds its points and, for an Ace, one Ace. */
  lemma Extend(h: seq<Card>, c: Card)
    ensures SoftTotal(h + [c]) == SoftTotal(h) + Points(c)
    ensures HardTotal(h + [c]) == HardTotal(h) + LowPoints(c)
    ensures Aces(h + [c]) == Aces(h) + AceBit(c)
  {
    assert (h + [c])[..|h|] == h;
  }

  /** Each Ace is worth exactly 10 more soft than hard, and every card counts
      at least 1. */
  lemma {:induction false} TotalsRelated(h: seq<Card>)
    ensures SoftTotal(h) == HardTotal(h) + 10 * Aces(h)
    ensures Aces(h) <= |h| <= HardTotal(h)
  {
    if |h| > 0 {
      TotalsRelated(h[..|h| - 1]);
    }
  }

  /** The backend's demotion loop: while the total is over 21 and an Ace is
      still counted as 11, count it as 1. */
  function Demote(v: nat, aces: nat): nat
    decreases aces
  {
    if v > 21 && aces > 0 then Demote(v - 10, aces - 1) else v
  }

  function Min(a: int, b: int): int {
    if a <= b then a else b
  }

  /** The number of Aces that have to be demoted to bring `v` to 21 or below,
      or all `aces` of them if that is not enough. */
  function Demotions(v: nat, aces: nat): (k: nat)
    ensures k <= aces
    ensures v - 10 * k <= 21 || k == aces
    ensures k > 0 ==> v - 10 * (k - 1) > 21
  {
    if v <= 21 then 0 else Min(aces, (v - 12) / 10)
  }

  /** The loop demotes exactly `Demotions(v, aces)` Aces. */
  lemma {:induction false} DemoteCount(v: nat, aces: nat)
    ensures Demote(v, aces) == v - 10 * Demotions(v, aces)
    decreases aces
  {
    if v > 21 && aces > 0 {
      DemoteCount(v - 10, aces - 1);
      assert Demotions(v, aces) == 1 + Demotions(v - 10, aces - 1);
    }
  }

  /** The value the backend gives a hand. */
  function HandValue(h: seq<Card>): nat {
    Demote(SoftTotal(h), Aces(h))
  }

  /** The value is the all-Aces-high total less 10 for each demoted Ace, and
      the number demoted is the least that brings the total to 21 or below,
      or every Ace when no number does. */
  lemma HandValueDemotions(h: seq<Card>)
    ensures var k := Demotions(SoftTotal(h), Aces(h));
      && HandValue(h) == SoftTotal(h) - 10 * k
      && k <= Aces(h)
      && (HandValue(h) <= 21 || k == Aces(h))
      && (k > 0 ==> SoftTotal(h) - 10 * (k - 1) > 21)
  {
    DemoteCount(SoftTotal(h), Aces(h));
  }

  /** The value lies between the all-Aces-low and all-Aces-high totals; it is
      over 21 only with every Ace low, and never below the number of cards. */
  lemma HandValueBounds(h: seq<Card>)
    ensures HardTotal(h) <= HandValue(h) <= SoftTotal(h)
    ensures HandValue(h) > 21 ==> HandValue(h) == HardTotal(h)
    ensures HardTotal(h) <= 21 ==> HandValue(h) <= 21
    ensures |h| <= HandValue(h)
  {
    HandValueDemotions(h);
    TotalsRelated(h);
  }

  /** `check_blackjack`: two cards worth 21. */
  predicate IsBlackjack(h: seq<Card>) {
    |h| == 2 && HandValue(h) == 21
  }

  /** The two-card value: both Aces make 12, otherwise the plain sum as long
      as it does not pass 21. */
  lemma PairValue(h: seq<Card>)
    requires |h| == 2
    ensures h[0].rank == Ace && h[1].rank == Ace ==> HandValue(h) == 12
    ensures !(h[0].rank == Ace && h[1].rank == Ace) ==> HandValue(h) == Points(h[0]) + Points(h[1])
  {
    assert h[..1][..0] == [];
    assert h[..1] == [h[0]];
    assert h[..|h| - 1] == h[..1];
    assert SoftTotal(h[..1]) == Points(h[0]);
    assert Aces(h[..1]) == AceBit(h[0]);
    assert SoftTotal(h) == Points(h[0]) + Points(h[1]);
    assert Aces(h) == AceBit(h[0]) + AceBit(h[1]);
  }

  /** A blackjack is exactly an Ace together with a ten-valued card. */
  lemma BlackjackIsAceAndTen(h: seq<Card>)
    ensures IsBlackjack(h) <==>
      && |h| == 2
      && ((h[0].rank == Ace && TenValued(h[1].rank)) || (TenValued(h[0].rank) && h[1].rank == Ace))
  {
    if |h| == 2 {
      PairValue(h);
    }
  }

  /** The backend's loop as written: one pass over the cards summing the
      Aces-high total and counting Aces, then the demotion loop. */
  method ComputeHandValue(h: seq<Card>) returns (value: nat)
    ensures value == HandValue(h)
    ensures HardTotal(h) <= value
    ensures value > 21 ==> value == HardTotal(h)
  {
    value := 0;
    var aces: nat := 0;
    for i := 0 to |h|
      invariant value == SoftTotal(h[..i])
      invariant aces == Aces(h[..i])
    {
      assert h[..i + 1][..i] == h[..i];
      var rank := h[i].rank;
      if IsFace(rank) {
        value := value + 10;
      } else if rank == Ace {
        value := value + 11;
        aces := aces + 1;
      } else {
        value := value + Pips(rank);
      }
    }
    assert h[..|h|] == h;
    while value > 21 && aces > 0
      invariant Demote(value, aces) == HandValue(h)
      decreases aces
    {
      value := value - 10;
      aces := aces - 1;
    }
    HandValueBounds(h);
  }
}

=== FILE: invariants.dfy ===
/** What stays true across every call the backend can receive.

    From the state the backend starts in, any sequence of `start`, `hit` and
    `stand` calls keeps every one of the 52 cards in exactly one place (the
    deck or a hand), keeps an open round's player below 21, and never asks
    for a card from an empty deck.
 */
module Invariants {
  import opened Cards
  import opened Hand
  import opened Random
  import opened Rules
  import opened Game

  /** The deck and the two hands together are the full deck. */
  predicate Conserved(s: State) {
    multiset(s.deck) + multiset(s.player) + multiset(s.dealer) == multiset(FreshDeck())
  }

  /** The invariant of every reachable state: cards are conserved, and while
      the round is open the player is below 21 and the dealer holds at most
      the two dealt cards. */
  predicate Valid(s: State) {
    && Conserved(s)
    && (!s.gameOver ==> HandValue(s.player) < 21 && |s.dealer| <= 2)
  }

  /** With cards conserved, each of the 52 cards lies in exactly one place,
      once. */
  lemma ConservedPartition(s: State, c: Card)
    requires Conserved(s)
    ensures multiset(s.deck)[c] + multiset(s.player)[c] + multiset(s.dealer)[c] == 1
    ensures |s.deck| + |s.player| + |s.dealer| == 52
  {
    FreshDeckEachOnce(c);
    assert |multiset(s.deck) + multiset(s.player) + multiset(s.dealer)| == |multiset(FreshDeck())|;
  }

  lemma PrefixMultiset(a: seq<Card>, b: seq<Card>)
    requires a <= b
    ensures multiset(b) == multiset(a) + multiset(b[|a|..])
  {
    assert b == a + b[|a|..];
  }

  /** Moving cards from the deck to the ends of the hands keeps them
      conserved. */
  lemma DealsFromConserves(s: State, s': State)
    requires Conserved(s) && DealsFrom(s, s')
    ensures Conserved(s')
  {
    PrefixMultiset(s.player, s'.player);
    PrefixMultiset(s.dealer, s'.dealer);
  }

  /** The freshly loaded backend is in a valid state. */
  lemma InitialValid()
    ensures Valid(Initial())
  {
  }

  /** `start_game` leads to a valid state whatever came before. */
  lemma StartValid(shuffled: seq<Card>, g: Rng)
    requires IsShuffledDeck(shuffled)
    ensures Valid(Start(shuffled, g).state)
  {
    var s := Start(shuffled, g).state;
    PairValue(s.player);
  }

  /** From a valid state `hit` never runs out of cards and leads to a valid
      state. */
  lemma HitPreservesValid(s: State, g: Rng)
    requires Valid(s)
    ensures Hit(s, g).Ok?
    ensures Valid(Hit(s, g).value.state)
  {
    if !s.gameOver {
      HandValueBounds(s.player);
      ConservedPartition(s, Card(Hearts, Ace));
      var s' := Hit(s, g).value.state;
      DealsFromConserves(s, s');
    }
  }

  /** From a valid state `stand` never runs out of cards and leads to a valid
      state; the player it settles for is never over 21. */
  lemma StandPreservesValid(s: State, g: Rng)
    requires Valid(s)
    ensures Stand(s, g).Ok?
    ensures Valid(Stand(s, g).value.state)
    ensures !s.gameOver ==> HandValue(Stand(s, g).value.state.player) <= 20
  {
    if !s.gameOver {
      HandValueBounds(s.player);
      ConservedPartition(s, Card(Hearts, Ace));
      DealsFromConserves(s, Stand(s, g).value.state);
    }
  }

  /** A call to the backend. */
  datatype Command = StartCmd(shuffled: seq<Card>) | HitCmd | StandCmd

  /** Every `start` in the sequence uses some order of the full deck. */
  predicate WellShuffled(cmds: seq<Command>) {
    forall i :: 0 <= i < |cmds| ==> (cmds[i].StartCmd? ==> IsShuffledDeck(cmds[i].shuffled))
  }

  function Apply(s: State, g: Rng, c: Command): Result<Step>
    requires c.StartCmd? ==> IsShuffledDeck(c.shuffled)
  {
    match c
    case StartCmd(shuffled) => Ok(Start(shuffled, g))
    case HitCmd => Hit(s, g)
    case StandCmd => Stand(s, g)
  }

  /** Every single call keeps a valid state valid, without a fault. */
  lemma ApplyPreservesValid(s: State, g: Rng, c: Command)
    requires Valid(s)
    requires c.StartCmd? ==> IsShuffledDeck(c.shuffled)
    ensures Apply(s, g, c).Ok?
    ensures Valid(Apply(s, g, c).value.state)
  {
    match c
    case StartCmd(shuffled) => StartValid(shuffled, g);
    case HitCmd => HitPreservesValid(s, g);
    case StandCmd => StandPreservesValid(s, g);
  }

  /** The state after a sequence of calls, or the fault that stopped it. */
  function Run(s: State, g: Rng, cmds: seq<Command>): Result<(State, Rng)>
    requires WellShuffled(cmds)
    decreases |cmds|
  {
    if |cmds| == 0 then Ok((s, g))
    else
      match Apply(s, g, cmds[0])
      case Failure(f) => Failure(f)
      case Ok(step) => Run(step.state, step.rng, cmds[1..])
  }

  /** Any sequence of calls from a valid state completes without a fault and
      ends in a valid state. */
  lemma {:induction false} RunPreservesValid(s: State, g: Rng, cmds: seq<Command>)
    requires Valid(s) && WellShuffled(cmds)
    ensures Run(s, g, cmds).Ok?
    ensures Valid(Run(s, g, cmds).value.0)
    decreases |cmds|
  {
    if |cmds| > 0 {
      ApplyPreservesValid(s, g, cmds[0]);
      var step := Apply(s, g, cmds[0]).value;
      assert WellShuffled(cmds[1..]);
      RunPreservesValid(step.state, step.rng, cmds[1..]);
    }
  }

  /** From the freshly loaded backend no sequence of calls ever draws from
      an empty deck, and the cards stay conserved throughout. */
  lemma NeverRunsDry(g: Rng, cmds: seq<Command>)
    requires WellShuffled(cmds)
    ensures Run(Initial(), g, cmds).Ok?
    ensures Conserved(Run(Initial(), g, cmds).value.0)
  {
    InitialValid();
    RunPreservesValid(Initial(), g, cmds);
  }
}

=== FILE: random.dfy ===
/** The backend's random number generator, seen from the outside.

    The backend asks Python's `random` module for an index in a range each
    time it draws a card. The model does not say how the generator works: it
    is an arbitrary stream of natural numbers together with a position in it,
    and each request consumes the next number, capped to the range asked
    for. Every index can come out of some stream, so nothing is lost by this.
 */
module Random {

  datatype Rng = Rng(stream: nat -> nat, pos: nat)

  /** A number in `[0, n)`, like `random.randint(0, n - 1)`, and the generator
      advanced past it. The range must not be empty. */
  function Below(g: Rng, n: nat): (r: (nat, Rng))
    requires 0 < n
    ensures r.0 < n
    ensures r.1 == Rng(g.stream, g.pos + 1)
  {
    var k := g.stream(g.pos);
    (if k < n then k else n - 1, g.(pos := g.pos + 1))
  }

  /** The generator that answers `k` to every request. */
  function Constant(k: nat): Rng {
    Rng(_ => k, 0)
  }

  /** Any index in range is a possible answer. */
  lemma BelowCanYieldAny(n: nat, i: nat)
    requires i < n
    ensures Below(Constant(i), n).0 == i
  {
  }
}

=== FILE: rules.dfy ===
/** How the backend settles a round and what it tells the player.

    The backend decides a result at three places: right after the deal (a
    natural on either side), when a hit brings the player to exactly 21, and
    when the player stands. Each place applies its own ordered rule. The
    outcomes are an enumeration here; the message text is a fixed table over
    it.
 */
module Rules {
  import opened Cards

  datatype Outcome =
    | BothBlackjack     // both naturals at the deal: push
    | PlayerBlackjack   // player natural at the deal
    | DealerBlackjack   // dealer natural at the deal
    | PlayerBust        // a hit took the player over 21
    | DealerBustOn21    // player hit to 21, dealer went over 21
    | PushOn21          // player hit to 21, dealer made 21
    | WinWith21         // player hit to 21, dealer stopped below 21
    | DealerBust        // player stood, dealer went over 21
    | PlayerHigher      // player stood and beat the dealer
    | Tie               // player stood, equal totals
    | DealerHigher      // player stood, dealer ahead

  /** What a reply of the backend says besides the hands. */
  datatype Message =
    | NoMessage           // a deal with no natural: the reply carries no message
    | HandWorth(value: nat) // a hit that leaves the round open
    | Settled(outcome: Outcome)
    | GameIsOver          // hit or stand after the round has ended

  datatype Side = Player | Dealer | Neither

  datatype Option<T> = None | Some(value: T)

  /** Who an outcome favours. */
  function Winner(o: Outcome): Side {
    match o
    case BothBlackjack | PushOn21 | Tie => Neither
    case PlayerBlackjack | DealerBustOn21 | WinWith21 | DealerBust | PlayerHigher => Player
    case DealerBlackjack | PlayerBust | DealerHigher => Dealer
  }

  /** The rule applied after the deal: both naturals push, then a player
      natural wins, then a dealer natural loses; with neither the round goes
      on (`None`). */
  function DealOutcome(playerNatural: bool, dealerNatural: bool): (r: Option<Outcome>)
    ensures r.None? <==> !playerNatural && !dealerNatural
    ensures r.Some? ==> Winner(r.value) == (if playerNatural == dealerNatural then Neither
                                            else if playerNatural then Player else Dealer)
    ensures playerNatural && dealerNatural ==> r == Some(BothBlackjack)
    ensures playerNatural && !dealerNatural ==> r == Some(PlayerBlackjack)
    ensures !playerNatural && dealerNatural ==> r == Some(DealerBlackjack)
  {
    if playerNatural && dealerNatural then Some(BothBlackjack)
    else if playerNatural then Some(PlayerBlackjack)
    else if dealerNatural then Some(DealerBlackjack)
    else None
  }

  /** The rule applied once the dealer has played out after the player hit
      to exactly 21: a dealer bust wins, a dealer 21 pushes, anything else
      wins. */
  function TwentyOneOutcome(dealerScore: nat): (o: Outcome)
    ensures Winner(o) != Dealer
    ensures dealerScore != 21 ==> Winner(o) == Player
    ensures o == PushOn21 <==> dealerScore == 21
    ensures o == DealerBustOn21 <==> dealerScore > 21
    ensures o == WinWith21 <==> dealerScore < 21
  {
    if dealerScore > 21 then DealerBustOn21
    else if dealerScore == 21 then PushOn21
    else WinWith21
  }

  /** The rule applied after the player stands and the dealer has played
      out: a dealer bust wins, then the higher total wins, equal totals push. */
  function StandOutcome(playerScore: nat, dealerScore: nat): (o: Outcome)
    ensures o == DealerBust <==> dealerScore > 21
    ensures o == PlayerHigher <==> dealerScore <= 21 && playerScore > dealerScore
    ensures o == Tie <==> dealerScore <= 21 && playerScore == dealerScore
    ensures o == DealerHigher <==> dealerScore <= 21 && playerScore < dealerScore
  {
    if dealerScore > 21 then DealerBust
    else if playerScore > dealerScore then PlayerHigher
    else if dealerScore == playerScore then Tie
    else DealerHigher
  }

  /** The stand rule, read as who wins: the player exactly when the dealer
      busts or is beaten, the dealer exactly when it is ahead without
      busting, nobody on equal totals. The rule never asks whether the
      player is over 21. */
  lemma StandWinner(playerScore: nat, dealerScore: nat)
    ensures Winner(StandOutcome(playerScore, dealerScore)) == Player <==>
              dealerScore > 21 || playerScore > dealerScore
    ensures Winner(StandOutcome(playerScore, dealerScore)) == Dealer <==>
              dealerScore <= 21 && playerScore < dealerScore
    ensures Winner(StandOutcome(playerScore, dealerScore)) == Neither <==>
              dealerScore <= 21 && playerScore == dealerScore
  {
  }

  /** Hitting to 21 settles the round the way standing on 21 would. */
  lemma TwentyOneAgreesWithStand(dealerScore: nat)
    ensures Winner(TwentyOneOutcome(dealerScore)) == Winner(StandOutcome(21, dealerScore))
    ensures TwentyOneOutcome(dealerScore) == PushOn21 <==> StandOutcome(21, dealerScore) == Tie
  {
  }

  /** The decimal digits of `n`, as Python's f-string prints an int. */
  function NatToString(n: nat): (s: string)
    ensures |s| > 0
    ensures forall i :: 0 <= i < |s| ==> IsDigit(s[i])
    ensures s[0] == '0' ==> n == 0
    decreases n
  {
    var digit := ['0' + (n % 10) as char];
    if n < 10 then digit else NatToString(n / 10) + digit
  }

  /** Reading the printed digits back gives the number. */
  lemma {:induction false} NatToStringRoundTrip(n: nat)
    ensures DecimalValue(NatToString(n)) == n
    decreases n
  {
    var s := NatToString(n);
    if n >= 10 {
      NatToStringRoundTrip(n / 10);
      assert s[..|s| - 1] == NatToString(n / 10);
    }
  }

  /** The message string the backend sends for each outcome. */
  function OutcomeText(o: Outcome): string {
    match o
    case BothBlackjack => "Both have Blackjack! Push!"
    case PlayerBlackjack => "\U{1F389} BLACKJACK! You win! \U{1F389}"
    case DealerBlackjack => "Dealer has Blackjack! You lose!"
    case PlayerBust => "Bust! You lose!"
    case DealerBustOn21 => "You win! Dealer busts!"
    case PushOn21 => "Push! Both got 21!"
    case WinWith21 => "You win with 21!"
    case DealerBust => "Dealer busts! You win! \U{1F389}"
    case PlayerHigher => "You win! \U{1F389}"
    case Tie => "Push! It's a tie!"
    case DealerHigher => "Dealer wins!"
  }

  /** Different outcomes are announced with different messages, so the
      message alone tells which outcome was reached. */
  lemma OutcomeTextInjective(a: Outcome, b: Outcome)
    ensures OutcomeText(a) == OutcomeText(b) ==> a == b
  {
  }

  /** The message string of a reply; `NoMessage` has none. */
  function MessageText(m: Message): string {
    match m
    case NoMessage => ""
    case HandWorth(v) => "Your hand is worth " + NatToString(v)
    case Settled(o) => OutcomeText(o)
    case GameIsOver => "Game is over! Please start a new game."
  }

  /** The reply to a hit that keeps the round open is the fixed prefix
      followed by digits that read back as the hand's value. */
  lemma HandWorthReadsBack(v: nat)
    ensures var t := MessageText(HandWorth(v));
      && |t| > 19 && t[..19] == "Your hand is worth "
      && (forall i :: 19 <= i < |t| ==> IsDigit(t[i]))
      && DecimalValue(t[19..]) == v
  {
    var t := MessageText(HandWorth(v));
    assert t[19..] == NatToString(v);
    NatToStringRoundTrip(v);
  }
}

=== FILE: scenarios.dfy ===
/** Concrete hands and a concrete round, worked through the model. */
module Scenarios {
  import opened Cards
  import opened Hand
  import opened Random
  import opened Rules
  import opened Game

  lemma Totals2(a: Card, b: Card)
    ensures SoftTotal([a, b]) == Points(a) + Points(b)
    ensures Aces([a, b]) == AceBit(a) + AceBit(b)
  {
    Extend([], a);
    assert [a] == [] + [a];
    Extend([a], b);
    assert [a, b] == [a] + [b];
  }

  lemma Totals3(a: Card, b: Card, c: Card)
    ensures SoftTotal([a, b, c]) == Points(a) + Points(b) + Points(c)
    ensures Aces([a, b, c]) == AceBit(a) + AceBit(b) + AceBit(c)
  {
    Totals2(a, b);
    Extend([a, b], c);
    assert [a, b, c] == [a, b] + [c];
  }

  lemma Totals4(a: Card, b: Card, c: Card, d: Card)
    ensures SoftTotal([a, b, c, d]) == Points(a) + Points(b) + Points(c) + Points(d)
    ensures Aces([a, b, c, d]) == AceBit(a) + AceBit(b) + AceBit(c) + AceBit(d)
  {
    Totals3(a, b, c);
    Extend([a, b, c], d);
    assert [a, b, c, d] == [a, b, c] + [d];
  }

  lemma Totals5(a: Card, b: Card, c: Card, d: Card, e: Card)
    ensures SoftTotal([a, b, c, d, e]) == Points(a) + Points(b) + Points(c) + Points(d) + Points(e)
    ensures Aces([a, b, c, d, e]) == AceBit(a) + AceBit(b) + AceBit(c) + AceBit(d) + AceBit(e)
  {
    Totals4(a, b, c, d);
    Extend([a, b, c, d], e);
    assert [a, b, c, d, e] == [a, b, c, d] + [e];
  }

  /** Two Aces and a nine make 21: one Ace is demoted. */
  lemma TwoAcesAndNine()
    ensures HandValue([Card(Hearts, Ace), Card(Spades, Ace), Card(Clubs, Nine)]) == 21
  {
    Totals3(Card(Hearts, Ace), Card(Spades, Ace), Card(Clubs, Nine));
    assert Demote(31, 2) == 21;
  }

  /** Four Aces and a nine make 13: all four Aces are demoted. */
  lemma FourAcesAndNine()
    ensures HandValue([Card(Hearts, Ace), Card(Diamonds, Ace), Card(Clubs, Ace),
                       Card(Spades, Ace), Card(Clubs, Nine)]) == 13
  {
    Totals5(Card(Hearts, Ace), Card(Diamonds, Ace), Card(Clubs, Ace),
            Card(Spades, Ace), Card(Clubs, Nine));
    assert Demote(53, 4) == 13 by {
      assert Demote(53, 4) == Demote(43, 3) == Demote(33, 2) == Demote(23, 1) == Demote(13, 0);
    }
  }

  /** Two Aces and two Kings make 22, a bust: both Aces are demoted and the
      hand is still over 21. */
  lemma TwoAcesTwoKings()
    ensures HandValue([Card(Hearts, Ace), Card(Spades, Ace), Card(Hearts, King), Card(Spades, King)]) == 22
  {
    Totals4(Card(Hearts, Ace), Card(Spades, Ace), Card(Hearts, King), Card(Spades, King));
    assert Demote(42, 2) == Demote(32, 1) == Demote(22, 0);
  }

  /** 10, 9 and 5 are a bust; 10, 9 and 2 make 21 without being a blackjack;
      an Ace and a King are one. */
  lemma BustBoundary()
    ensures HandValue([Card(Hearts, Ten), Card(Hearts, Nine), Card(Hearts, Five)]) == 24
    ensures HandValue([Card(Hearts, Ten), Card(Hearts, Nine), Card(Hearts, Two)]) == 21
    ensures !IsBlackjack([Card(Hearts, Ten), Card(Hearts, Nine), Card(Hearts, Two)])
    ensures IsBlackjack([Card(Hearts, Ace), Card(Hearts, King)])
  {
    Totals3(Card(Hearts, Ten), Card(Hearts, Nine), Card(Hearts, Five));
    Totals3(Card(Hearts, Ten), Card(Hearts, Nine), Card(Hearts, Two));
    Totals2(Card(Hearts, Ace), Card(Hearts, King));
  }

  /** Taking a card can lower the value: a soft 20 plus a five is 15. */
  lemma ValueNotMonotone()
    ensures HandValue([Card(Hearts, Ace), Card(Hearts, Nine)]) == 20
    ensures HandValue([Card(Hearts, Ace), Card(Hearts, Nine), Card(Hearts, Five)]) == 15
  {
    Totals2(Card(Hearts, Ace), Card(Hearts, Nine));
    Totals3(Card(Hearts, Ace), Card(Hearts, Nine), Card(Hearts, Five));
    assert Demote(25, 1) == Demote(15, 0);
  }

  /** The dealer stops on a soft 17 (an Ace and a six) without drawing. */
  lemma DealerStandsOnSoft17(deck: seq<Card>, g: Rng)
    ensures DealerPlay([Card(Hearts, Ace), Card(Hearts, Six)], deck, g)
            == Ok(Table([Card(Hearts, Ace), Card(Hearts, Six)], deck, g))
  {
    var soft17 := [Card(Hearts, Ace), Card(Hearts, Six)];
    Totals2(soft17[0], soft17[1]);
    assert HandValue(soft17) == 17 by {
      assert SoftTotal(soft17) == 17;
    }
  }

  /** A generator that picks positions 5, 5, 6, 4, 3 and then always 0. */
  function Script(p: nat): nat {
    if p == 0 then 5 else if p == 1 then 5 else if p == 2 then 6
    else if p == 3 then 4 else if p == 4 then 3 else 0
  }

  function ScriptedRng(): Rng {
    Rng(Script, 0)
  }

  /** Drawing with a generator whose next number is in range takes the card
      at that position. */
  lemma DrawAt(deck: seq<Card>, g: Rng)
    requires g.stream(g.pos) < |deck|
    ensures DrawFrom(deck, g)
            == Drawn(deck[g.stream(g.pos)], Pop(deck, g.stream(g.pos)).1, g.(pos := g.pos + 1))
    ensures DrawCard(deck, g) == Ok(DrawFrom(deck, g))
  {
  }

  /** The first Hearts of the unshuffled deck. */
  lemma FreshDeckStartsWithHearts()
    ensures FreshDeck()[0] == Card(Hearts, Two)
    ensures FreshDeck()[3] == Card(Hearts, Five)
    ensures FreshDeck()[4] == Card(Hearts, Six)
    ensures FreshDeck()[5] == Card(Hearts, Seven)
    ensures FreshDeck()[6] == Card(Hearts, Eight)
    ensures FreshDeck()[8] == Card(Hearts, Ten)
  {
  }

  /** The opening deal on the unshuffled deck with the scripted generator:
      7 and 8 of Hearts to the player, 10 and 6 of Hearts to the dealer; the
      5 and the 2 of Hearts are left at positions 3 and 0. */
  lemma ScriptedDeal()
    ensures var dealt := Deal(FreshDeck(), ScriptedRng());
      && dealt.state.player == [Card(Hearts, Seven), Card(Hearts, Eight)]
      && dealt.state.dealer == [Card(Hearts, Ten), Card(Hearts, Six)]
      && dealt.state.deck[0] == Card(Hearts, Two)
      && dealt.state.deck[3] == Card(Hearts, Five)
      && dealt.rng == Rng(Script, 4)
  {
    var d0 := FreshDeck();
    FreshDeckStartsWithHearts();
    var g0 := ScriptedRng();
    DrawAt(d0, g0);
    var p1 := DrawFrom(d0, g0);
    DrawAt(p1.deck, p1.rng);
    var p2 := DrawFrom(p1.deck, p1.rng);
    DrawAt(p2.deck, p2.rng);
    var d1 := DrawFrom(p2.deck, p2.rng);
    DrawAt(d1.deck, d1.rng);
    var d2 := DrawFrom(d1.deck, d1.rng);
    assert p1.card == Card(Hearts, Seven);
    assert p1.deck[5] == Card(Hearts, Eight) && p1.deck[7] == Card(Hearts, Ten);
    assert p2.card == Card(Hearts, Eight);
    assert p2.deck[6] == Card(Hearts, Ten);
    assert d1.card == Card(Hearts, Ten);
    assert d1.deck[4] == Card(Hearts, Six);
    assert d2.card == Card(Hearts, Six);
    assert d2.deck[0] == Card(Hearts, Two) && d2.deck[3] == Card(Hearts, Five);
    assert DrawPair(d0, g0) == Pair([p1.card, p2.card], p2.deck, p2.rng);
    assert DrawPair(p2.deck, p2.rng) == Pair([d1.card, d2.card], d2.deck, d2.rng);
  }

  /** Neither opening hand is a natural, so the round stays open. */
  lemma ScriptedStart()
    ensures var start := Start(FreshDeck(), ScriptedRng());
      && start.state.player == [Card(Hearts, Seven), Card(Hearts, Eight)]
      && start.state.dealer == [Card(Hearts, Ten), Card(Hearts, Six)]
      && !start.state.gameOver
      && start.message == NoMessage
      && start.state.deck[0] == Card(Hearts, Two)
      && start.state.deck[3] == Card(Hearts, Five)
      && start.rng == Rng(Script, 4)
  {
    ScriptedDeal();
    Totals2(Card(Hearts, Seven), Card(Hearts, Eight));
    Totals2(Card(Hearts, Ten), Card(Hearts, Six));
  }

  /** From an open round with the player on 7 and 8, hitting the 5 of Hearts
      makes 20 and keeps the round open. */
  lemma HitFive(s: State, g: Rng)
    requires !s.gameOver && 4 <= |s.deck|
    requires s.player == [Card(Hearts, Seven), Card(Hearts, Eight)]
    requires s.deck[3] == Card(Hearts, Five) && g.stream(g.pos) == 3
    requires s.deck[0] == Card(Hearts, Two)
    ensures Hit(s, g).Ok?
    ensures Hit(s, g).value.message == HandWorth(20)
    ensures Hit(s, g).value.state
            == State(Pop(s.deck, 3).1, s.player + [Card(Hearts, Five)], s.dealer, false)
    ensures Hit(s, g).value.rng == g.(pos := g.pos + 1)
    ensures Hit(s, g).value.state.deck[0] == Card(Hearts, Two)
  {
    DrawAt(s.deck, g);
    var d := DrawFrom(s.deck, g);
    var player := [Card(Hearts, Seven), Card(Hearts, Eight), Card(Hearts, Five)];
    assert s.player + [d.card] == player;
    assert d.deck[0] == Card(Hearts, Two);
    Totals3(player[0], player[1], player[2]);
    assert HandValue(player) == 20 by {
      assert SoftTotal(player) == 20 && Aces(player) == 0;
    }
    assert Hit(s, g) == Ok(Step(State(d.deck, player, s.dealer, false), HandWorth(20), d.rng));
  }

  /** From an open round with the player on 20 and the dealer on 10 and 6,
      standing makes the dealer draw the 2 of Hearts and stop at 18, and the
      player wins. */
  lemma StandOnTwenty(s: State, g: Rng)
    requires !s.gameOver && 1 <= |s.deck|
    requires s.player == [Card(Hearts, Seven), Card(Hearts, Eight), Card(Hearts, Five)]
    requires s.dealer == [Card(Hearts, Ten), Card(Hearts, Six)]
    requires s.deck[0] == Card(Hearts, Two) && g.stream(g.pos) == 0
    ensures Stand(s, g).Ok?
    ensures Stand(s, g).value.state.dealer
            == [Card(Hearts, Ten), Card(Hearts, Six), Card(Hearts, Two)]
    ensures Stand(s, g).value.message == Settled(PlayerHigher)
  {
    var dealer := [Card(Hearts, Ten), Card(Hearts, Six), Card(Hearts, Two)];
    var two := DrawFrom(s.deck, g);
    DealerDrawsTwo(s.dealer, s.deck, g);
    Totals3(s.player[0], s.player[1], s.player[2]);
    assert HandValue(s.player) == 20;
    assert Stand(s, g) == Ok(Step(State(two.deck, s.player, dealer, true),
                                  Settled(StandOutcome(20, 18)), two.rng));
  }

  /** The dealer on 10 and 6 draws the 2 at the front of the deck and stops
      on 18. */
  lemma DealerDrawsTwo(dealer: seq<Card>, deck: seq<Card>, g: Rng)
    requires dealer == [Card(Hearts, Ten), Card(Hearts, Six)]
    requires 1 <= |deck| && deck[0] == Card(Hearts, Two) && g.stream(g.pos) == 0
    ensures var two := DrawFrom(deck, g);
      && DealerPlay(dealer, deck, g)
         == Ok(Table([Card(Hearts, Ten), Card(Hearts, Six), Card(Hearts, Two)], two.deck, two.rng))
      && HandValue([Card(Hearts, Ten), Card(Hearts, Six), Card(Hearts, Two)]) == 18
  {
    DrawAt(deck, g);
    var two := DrawFrom(deck, g);
    var after := [Card(Hearts, Ten), Card(Hearts, Six), Card(Hearts, Two)];
    assert dealer + [two.card] == after;
    Totals2(dealer[0], dealer[1]);
    Totals3(after[0], after[1], after[2]);
    assert HandValue(dealer) == 16;
    assert HandValue(after) == 18;
    assert DealerPlay(after, two.deck, two.rng) == Ok(Table(after, two.deck, two.rng));
  }

  /** From an open round with the player on 7 and 8 and the dealer on 10
      and 6, the generator picking positions 3 and then 0: the player hits
      the 5 of Hearts to reach 20 and stands, and the dealer draws the 2 of
      Hearts, stops at 18 and loses. */
  lemma HitFiveThenStand(s: State, g: Rng)
    requires !s.gameOver && 4 <= |s.deck|
    requires s.player == [Card(Hearts, Seven), Card(Hearts, Eight)]
    requires s.dealer == [Card(Hearts, Ten), Card(Hearts, Six)]
    requires s.deck[0] == Card(Hearts, Two) && s.deck[3] == Card(Hearts, Five)
    requires g.stream(g.pos) == 3 && g.stream(g.pos + 1) == 0
    ensures Hit(s, g).Ok?
    ensures Hit(s, g).value.message == HandWorth(20)
    ensures Stand(Hit(s, g).value.state, Hit(s, g).value.rng).Ok?
    ensures Stand(Hit(s, g).value.state, Hit(s, g).value.rng).value.state.dealer
            == [Card(Hearts, Ten), Card(Hearts, Six), Card(Hearts, Two)]
    ensures Stand(Hit(s, g).value.state, Hit(s, g).value.rng).value.message
            == Settled(PlayerHigher)
  {
    HitFive(s, g);
    var hit := Hit(s, g).value;
    StandOnTwenty(hit.state, hit.rng);
  }
}
